=== FILE: README.md ===
# CDS Connect Authoring Tool API core, modelled in Dafny

This project models the server-side core of the CDS Connect Authoring Tool API:

- **Local authentication.** `findByUsername` looks a user up in the users table loaded from `config/local-users.json`. The passport local strategy's verify callback, `getLocalConfiguration`, then compares the password.
- **LDAP configuration.** `getLdapConfiguration` produces the per-request LDAP options. It puts the request's username and password in place of the `{{username}}` and `{{password}}` placeholders in every string field of `server`. It also replaces a `tlsOptions.ca` list of certificate paths with the contents of the files that could be read.
- **Query-builder handlers.**
  - `resourceSelector` chooses a FHIR resource catalogue from a version string.
  - `resourceQuery` looks resources up by name.
  - `operatorQuery` finds the operators that apply to an operand type.
  - `implicitConversionInfo` serves the implicit-conversion table.
- **Configuration handlers.**
  - `getOneValueSet` walks the value-set tree along the request path.
  - `getConversionFunctions` lists the functions of the conversions library, each with a display description.
- **CQL import.** `CQLImporter.import` parses a primary CQL library and its dependencies. Each one is kept beside its own text.

JavaScript values are the datatype `JsRuntime.Value`. A property read on a value that is not `null` is `JsRuntime.Property`, so `undefined` is `None`. A read from `null` throws, and every caller checks for `null` first. A call that may throw returns `JsRuntime.Invocation`. A handler is modelled by the sequence of calls it makes on the Express response object (`JsRuntime.ResCall`): `json`, `send`, `sendStatus`, and `status`, which sends nothing by itself. `String.prototype.replace` with a global pattern and a string replacement is `Strings.JsReplaceAll`. It includes the `$` replacement patterns of ECMAScript's GetSubstitution. The literal replacement `Strings.ReplaceAll` is its reference, and the contract of `Strings.JsReplaceAll` states that the two agree when the replacement has no `$`. The request body's `username` and `password` become replacement text through `LdapConfig.BodyCredentials`, so a missing field is the text `undefined`.

The following are parameters of the model:

- File reads, meaning the users file, the CA certificate files, and the JSON data files read when a module is loaded.
- The `auth.ldap` configuration value.
- The ANTLR parser, abstracted as a function `parse` from text to a parse tree.

Modules:

| file | module | models |
|---|---|---|
| js_runtime.dfy | JsRuntime | values, property access, truthiness, throws, response calls |
| strings.dfy | Strings | global literal replacement and `String.prototype.replace` |
| seqs.dfy | Seqs | `Array.prototype.filter` |
| local_auth.dfy | LocalAuth | api/src/auth/localAuthUsers.js and the local strategy's verify callback |
| ldap_config.dfy | LdapConfig | `getLdapConfiguration` |
| query_handler.dfy | QueryHandler | api/src/handlers/queryHandler.js |
| config_handler.dfy | ConfigHandler | `getOneValueSet` and `getConversionFunctions` |
| cql_importer.dfy | CqlImporter | `CQLImporter.import` |

## Model

| member | source | states |
|---|---|---|
| LocalAuth.FirstMatch | api/src/auth/localAuthUsers.js:15-21 | The scan finds a user iff some key equals the name. The user's `uid` is the name, and its password is the value of the first entry with that key. |
| LocalAuth.FindByUsername | api/src/auth/localAuthUsers.js:13-23 | The callback's error is always null. A user is passed iff the name is one of the table's keys. The user's `uid` is the name and its password is the value stored under that key. |
| LocalAuth.FindByUsernameReadsObject | api/src/auth/localAuthUsers.js:13-23 | Read as a key/value object, the lookup gives `{uid: name, password: users[name]}` when the name is a key, and null otherwise. |
| LocalAuth.LoadedUsers | api/src/auth/localAuthUsers.js:4-11 | The users known by default are the parsed users file, or the empty object when the file could not be loaded. |
| LocalAuth.NoUsersFileFindsNobody | api/src/auth/localAuthUsers.js:4-11 | When the users file could not be loaded, the default table is empty and no name is found. |
| LocalAuth.SampleUsersOutcomes | api/test/auth/localAuthUsers.test.js:5-30 | The documented cases hold: `bob` is found with his password and `gerald` is not found. Against the same table, the verify callback accepts bob's right password and refuses a wrong password or an unknown user, as the `#getLocalConfiguration` cases of api/test/auth/configPassport.test.js:144-184 expect. |
| LocalAuth.CheckLocalUser | api/src/auth/configPassport.js:47-57 | A truthy lookup error (present and not the empty string) is passed on, and a lookup without one never gives an error. An unknown user gives `false`. The user is accepted iff their stored password strictly equals the supplied string, and the accepted user is the one looked up. |
| LocalAuth.FindByUsernameCall | api/src/auth/localAuthUsers.js:13-14 | An omitted `users` argument takes the loaded table. An explicit `null` does not take the default and throws in `Object.keys`. A given table is searched as given. |
| LocalAuth.GetLocalConfigurationAsWritten | api/src/auth/configPassport.js:44-61 | The call throws iff no table is given: an omitted `users` argument forwards the null default, and an explicit `null` is forwarded as it is, so both reach `Object.keys(null)`. With a table given, it agrees with the corrected callback. |
| LocalAuth.StrategyCallAlwaysThrows | api/src/auth/configPassport.js:44-60 | Called as the local strategy calls it, with three arguments, the as-written callback throws for every username, password and configured table. |
| LocalAuth.GetLocalConfiguration | api/src/auth/configPassport.js:44-61 | The corrected callback never reports an error. It accepts exactly when the first entry for the name stores the supplied password as a string, and the accepted user is `{uid: username, password}`. |
| LocalAuth.LocalLoginAgainstObject | api/src/auth/configPassport.js:51-57 | Against a users object, the result is the user iff the name is a key whose value is the supplied password string, and `false` otherwise. |
| LocalAuth.NoUsersFileNobodyLogsIn | api/src/auth/localAuthUsers.js:4-11 | Without a users file, every local login is refused. |
| LdapConfig.FillLiteral | api/src/auth/configPassport.js:19-21 | The corrected substitution: the template is split at the leftmost non-overlapping `{{username}}` occurrences and joined with the username, and that result is split at `{{password}}` and joined with the password. A template without placeholders is unchanged. |
| LdapConfig.FillAsWritten | api/src/auth/configPassport.js:19-21 | The two `replace` calls as written. For credentials without `$` they give exactly the verbatim substitution. |
| LdapConfig.FillServer | api/src/auth/configPassport.js:15-24 | Every string field of an object `server` is rewritten by the substitution. Every other field is kept and no key is added or removed. An array's string elements are rewritten the same way. A non-empty string `server` throws on the index assignment. |
| LdapConfig.LoadOne | api/src/auth/configPassport.js:32-38 | A path yields its file contents when the read succeeds, and nothing when the read throws. |
| LdapConfig.LoadCertificates | api/src/auth/configPassport.js:31-39 | The loaded list is no longer than the path list and holds only file contents. |
| LdapConfig.LoadCertificatesMembership | api/src/auth/configPassport.js:31-39 | A certificate is in the loaded list iff some path in the list reads to it. |
| LdapConfig.LoadCertificatesAppend | api/src/auth/configPassport.js:31-39 | Loading distributes over concatenation of path lists, so certificates appear in the order of their paths. |
| LdapConfig.LoadCertificatesAllReadable | api/test/auth/configPassport.test.js:109-124 | When every path is readable, the list becomes their contents one for one. |
| LdapConfig.UnreadablePathsSkipped | api/test/auth/configPassport.test.js:126-141 | Unreadable paths before and after a readable one leave just its contents. |
| LdapConfig.LoadCaFiles | api/src/auth/configPassport.js:25-40 | When `server.tlsOptions.ca` is an array, it becomes the loaded certificates and every other field of `server` and `tlsOptions` is kept. Otherwise `server` is unchanged. |
| LdapConfig.LdapConfigurationWith | api/src/auth/configPassport.js:12-42 | Without a truthy `server` the configuration is passed on unchanged. The call throws iff `server` is a non-empty string. Otherwise only `server` changes: it is filled in and then its CA list is loaded. |
| LdapConfig.LdapConfigurationAsWritten | api/src/auth/configPassport.js:12-42 | As written: fields outside `server` are kept, and the call throws iff `server` is a non-empty string. Every string field of an object `server` goes through the two `replace` calls, and its non-string fields other than `tlsOptions` are kept. An array `tlsOptions.ca` becomes the loaded certificates and the other `tlsOptions` fields are kept, whatever the credentials contain. For credentials without `$` it equals the corrected configuration. |
| LdapConfig.LdapConfiguration | api/src/auth/configPassport.js:12-42 | With credentials inserted verbatim: fields outside `server` are kept. Every string field of an object `server` receives the placeholder substitution, and its non-string fields other than `tlsOptions` are kept. |
| LdapConfig.CaListLoaded | api/src/auth/configPassport.js:25-40 | In the final configuration an array `tlsOptions.ca` holds the readable files' contents, and the other `tlsOptions` fields, such as `rejectUnauthorized`, are kept. |
| LdapConfig.PasswordFieldIsVerbatim | api/test/auth/configPassport.test.js:91-107 | With literal insertion (the corrected substitution), a field holding only `{{password}}` receives the password exactly, whatever characters it contains. As written this is guaranteed only for passwords without `$`: the patterns `$$`, `$&`, `` $` `` and `$'` are expanded (see `LdapConfig.FillAsWritten`). |
| LdapConfig.UsernameFieldIsVerbatim | api/src/auth/configPassport.js:19-21 | With literal insertion (the corrected substitution), a field holding only `{{username}}` receives the username exactly, unless the username itself spells `{{password}}`. As written this is guaranteed only for credentials without `$`, since `$$`, `$&`, `` $` `` and `$'` are expanded. |
| LdapConfig.PasswordSubstitutedAfterUsername | api/src/auth/configPassport.js:19-21 | With literal insertion (the corrected substitution), the password substitution runs over the username substitution's result, so a username spelling `{{password}}` is replaced by the password. |
| LdapConfig.BodyCredentials | api/src/auth/configPassport.js:20-21 | `req.body.username` and `req.body.password` are used as given when present. A missing one becomes the text `undefined`, which is what `replace` inserts for an `undefined` replacement. |
| LdapConfig.MissingFieldsFillUndefined | api/src/auth/configPassport.js:19-21 | A request body without `password` fills `{{password}}` with the text `undefined`, and one without `username` does the same for `{{username}}`. |
| LdapConfig.DollarPasswordIsAltered | api/src/auth/configPassport.js:19-21 | As written, the password `a$$b` reaches the `{{password}}` field as `a$b`, where verbatim insertion gives `a$$b`. |
| Strings.ReplaceAll | api/src/auth/configPassport.js:19-21 | Global literal replacement is splitting at the leftmost non-overlapping occurrences and joining with the replacement. |
| Strings.SplitJoin | api/src/auth/configPassport.js:19-21 | Splitting at the leftmost non-overlapping occurrences of a pattern and joining with the pattern gives back the original text. |
| Strings.SplitPiecesAreFree | api/src/auth/configPassport.js:19-21 | No piece of the split contains the pattern, so every occurrence is replaced. |
| Strings.ReplaceAllWithoutOccurrence | api/src/auth/configPassport.js:19-21 | Text not containing the pattern is left unchanged. |
| Strings.ReplaceAllBySelf | api/src/auth/configPassport.js:19-21 | Replacing a pattern by itself leaves the text unchanged. |
| Strings.Substitution | api/src/auth/configPassport.js:19-21 | A replacement string without `$` stands for itself at every match. |
| Strings.JsReplaceAll | api/src/auth/configPassport.js:19-21 | `String.prototype.replace` with a global pattern and a replacement without `$` is literal replacement. |
| Seqs.Filter | api/src/handlers/queryHandler.js:46-48 | `filter` returns no more elements than it was given, and every element it returns satisfies the predicate. |
| Seqs.FilterMembership | api/src/handlers/queryHandler.js:46-48 | An element survives `filter` iff it was in the array and satisfies the predicate. |
| Seqs.FilterAppend | api/src/handlers/queryHandler.js:46-48 | `filter` distributes over concatenation, so relative order is kept. |
| Seqs.FilterEmpty | api/src/handlers/queryHandler.js:46-49 | `filter` gives an empty array iff no element satisfies the predicate. |
| QueryHandler.ScanR4Finds | api/src/handlers/queryHandler.js:57 | The scan succeeds iff the pattern `4\.0\.[01x]` matches somewhere at or after the start position. |
| QueryHandler.ResourceSelector | api/src/handlers/queryHandler.js:54-59 | `1.0.2` selects DSTU2 and `3.0.0` selects STU3, and only those strings select them. R4 is selected iff the version is neither of those and its text contains a match of `4\.0\.[01x]`. |
| QueryHandler.R4VersionsAreSubstrings | api/src/handlers/queryHandler.js:57 | The R4 test is unanchored: any version containing `4.0.0`, `4.0.1` or `4.0.x` selects R4. |
| JsRuntime.StringOf | api/src/handlers/queryHandler.js:57 | A present text is itself, and a missing value (`undefined`) becomes the text `undefined`, as the regular-expression test and `replace` convert their argument. |
| QueryHandler.MissingVersionSelectsNothing | api/src/handlers/queryHandler.js:54-58 | A missing version, read as the text `undefined`, selects no catalogue. |
| QueryHandler.ResourceQuery | api/src/handlers/queryHandler.js:41-52 | Exactly one response is sent. It is 400 iff the name is missing or empty or the version selects nothing. When the selected catalogue has resources of that name, it is `json` of exactly those resources, in catalogue order. It is 404 iff the selected catalogue has no resource of that name. |
| QueryHandler.ResourcesNamed | api/src/handlers/queryHandler.js:46-48 | A resource is in the result iff it is in the catalogue under the requested name. The result is empty iff no resource has that name. |
| QueryHandler.ResourcesNamedKeepOrder | api/src/handlers/queryHandler.js:46-48 | Found resources keep their catalogue order. |
| QueryHandler.AnyIsWildcard | api/src/handlers/queryHandler.js:28-34 | An operator whose element types include `System.Any` applies to every element type of its operand type. |
| QueryHandler.OperatorQuery | api/src/handlers/queryHandler.js:22-39 | Exactly one response is sent. It is 400 iff either parameter is missing or empty. When operators apply, it is `json` of exactly those operators, in file order. It is 404 iff none applies. |
| QueryHandler.AcceptedOperators | api/src/handlers/queryHandler.js:30-35 | An operator is in the result iff its primary operand type matches and its element types include the requested type or `System.Any`. The result is empty iff none does. |
| QueryHandler.AcceptedOperatorsKeepOrder | api/src/handlers/queryHandler.js:30-35 | Accepted operators keep their relative order. |
| QueryHandler.ImplicitConversionInfoAsWritten | api/src/handlers/queryHandler.js:16-20 | The table is sent iff it is present and truthy. Otherwise the only call is `status(404)`, which sends nothing. |
| QueryHandler.MissingInfoLeavesRequestOpen | api/src/handlers/queryHandler.js:16-20 | Without the table, the as-written handler sends no response at all. |
| QueryHandler.ImplicitConversionInfo | api/src/handlers/queryHandler.js:16-20 | The corrected handler always sends a response: the table when it is present and truthy, and a 404 otherwise. |
| ConfigHandler.Resolve | api/src/handlers/configHandler.js:54-66 | A walk can end anywhere but at a value only by a non-empty segment. On a `null` tree it throws iff the path has a non-empty segment. |
| JsRuntime.Property | api/src/handlers/configHandler.js:60 | Defined only for a value that is not `null`, since reading from `null` throws. On an object, a key reads its own property, and an absent key reads `undefined`. On an array or a string, `length` reads the length. A canonical index reads the element when it is in range (on a string, the one-character string at that position) and `undefined` otherwise, and any other key reads `undefined`. On a boolean or a number, every key reads `undefined`. |
| JsRuntime.ArrayIndex | api/src/handlers/configHandler.js:60 | A segment indexes an array or a string iff it is a canonical decimal numeral, and it is then exactly the rendering `String(i)` of the index it reads. |
| JsRuntime.ArrayIndexOfNumeral | api/src/handlers/configHandler.js:60 | Every index is addressed by its decimal rendering and by no other key. |
| ConfigHandler.ResolveConcat | api/src/handlers/configHandler.js:56-66 | Walking `p + q` is walking `p` and then `q` from where `p` ended. A walk that stopped stays stopped. |
| ConfigHandler.ResolveSkipsEmptySegments | api/src/handlers/configHandler.js:57-60 | Empty path segments make no difference: the walk along the non-empty segments alone ends at the same place. |
| ConfigHandler.AllEmptySegmentsSelectTree | api/src/handlers/configHandler.js:56-67 | A path of empty segments selects the whole value-set tree. |
| ConfigHandler.MissingKeyStopsWalk | api/src/handlers/configHandler.js:60-64 | A segment naming no property ends the walk as missing, whatever segments follow. |
| ConfigHandler.GetOneValueSet | api/src/handlers/configHandler.js:45-68 | The handler throws iff the walk reads a segment from `null`. When the walk finds a value, that value is sent as JSON. When a level is missing, the handler sets 404, sends the message, and then still calls `json` with `undefined`. |
| ConfigHandler.Describe | api/src/handlers/configHandler.js:72-77 | A definition's description is its override when one is listed, and its name otherwise. |
| ConfigHandler.ConversionFunctions | api/src/handlers/configHandler.js:70-81 | There is one entry per definition, in order. Each is named `Convert.` followed by the definition name and carries that definition's description. |
| ConfigHandler.ConversionNamesRoundTrip | api/src/handlers/configHandler.js:78 | Removing the `Convert.` prefix from each entry name gives back the definition names, in order. |
| ConfigHandler.CholesterolConversionDescribed | api/src/handlers/configHandler.js:19-21 | `to_mg_per_dL` is listed as `Convert.to_mg_per_dL` with the description "mmol/L to mg/dL for blood cholesterol". |
| CqlImporter.ImportOne | api/src/cql-merge/import/CQLImporter.js:13-15 | A library keeps its raw text and holds the parse of that text. |
| CqlImporter.ImportAll | api/src/cql-merge/import/CQLImporter.js:14-16 | There is one library per dependency text, position by position. |
| CqlImporter.Import | api/src/cql-merge/import/CQLImporter.js:12-18 | The group's primary library is the parse of the primary text and keeps that text. There are as many dependencies as texts, each the parse of its own text and keeping it. |
| CqlImporter.ImportKeepsDependencyTexts | api/src/cql-merge/import/CQLImporter.js:12-18 | The group gives back exactly the texts it was given, in order. |
| CqlImporter.ImportAllKeepsTexts | api/src/cql-merge/import/CQLImporter.js:14-16 | Mapping the texts to libraries and reading the texts back is the identity. |
| CqlImporter.ImportDependenciesAppend | api/src/cql-merge/import/CQLImporter.js:14-16 | Importing two dependency lists together gives the two imports one after the other. |
| CqlImporter.DependencyParsedFromOwnText | api/src/cql-merge/import/CQLImporter.js:15 | Each dependency depends only on its own text, not on its neighbours or on the primary library. |
| CqlImporter.NoDependencies | api/src/cql-merge/import/CQLImporter.js:12-18 | With no dependencies, the group holds the primary library alone. |

## Left out

- Express routing, the session store, the passport strategies' own code, and `serializeUser`/`deserializeUser` (api/src/auth/configPassport.js:63-99) are left out. They are framework wiring with no logic of their own.
- Reading `config/local-users.json`, the CA files, the JSON data files, and `config.get('auth.ldap')` is left out. Each becomes a parameter of the model, so no file or clock is touched.
- The "No users specified." message, the certificate error message and all other console output are left out.
- A string passed as `users` is not modelled. Its keys would be its character indices, as in the last case of api/test/auth/configPassport.test.js. `LocalAuth.UsersArg` covers an omitted argument, `null` and an object.
- Non-string request fields, and query parameters repeated into arrays, are not modelled. Credentials and query parameters are strings, or missing, and a missing one is read as `undefined`. A request with no body at all throws at api/src/auth/configPassport.js:20, which is not modelled: `LdapConfig.BodyCredentials` always has a body to read.
- Properties inherited from `Object.prototype` (`toString`, `constructor`, `__proto__`) are not seen by `JsRuntime.Property`, which reads own properties only. In the source, a value-set path segment or a definition name equal to such a key would find the inherited member.
- Strings are sequences of Unicode scalar values. JavaScript indexes strings by UTF-16 code units, so outside the Basic Multilingual Plane the index and `length` that `JsRuntime.Property` gives for a string differ from the source's. This matters only to a value-set path segment read from a string.
- The data files are taken as well-shaped records. An operator without `primaryOperand`, or a matching operator without `elementTypes`, throws at api/src/handlers/queryHandler.js:32-33 in the source. A resource whose `name` is not a string cannot be written in the model.
- Numbers are integers: `NaN`, fractions and the 2^32 bound on array indices are not modelled. File contents (`JBytes`) have no properties.
- The routers that turn a URL into the handlers' arguments are not part of this model. That includes the route that splits the value-set path into segments, so `ConfigHandler.GetOneValueSet` receives the segment sequence directly.
- `getTemplates`, `getValueSets`, `getDSTU2Resources`, `getSTU3Resources`, `getR4Resources` and `getResourceOperators` are left out. Each only passes a loaded data file to `json`.
- `CQLLibrary`, `CQLLibraryGroup`, the merge step, `CQLExporter` and the `importCQL`/`exportCQL` wrappers are not part of this model. `parseLibrary` is the parameter `parse`: the ANTLR lexer and parser have their error listeners removed and always return a tree, so `parse` is total.
- Dependency parse failures: a failure to parse a dependency is not isolated from the others. The importer neither catches nor reports one (api/src/cql-merge/import/CQLImporter.js:12-18). The model follows the code, so one parse covers every text.
- LdapConfig.LdapConfiguration: its own contract covers an object `server`. The array and string cases are stated by `LdapConfig.FillServer` and `LdapConfig.LdapConfigurationWith`, which it is built from.
- LdapConfig.LdapConfigurationAsWritten: its contract does not describe an array `server`. That case is stated by `LdapConfig.FillServer` and `LdapConfig.LdapConfigurationWith`, which it is built from, with the as-written substitution.

## Findings

| source | as written | input that shows it | evidently intended | confidence | as-written member | corrected member |
|---|---|---|---|---|---|---|
| api/src/auth/configPassport.js:44-60 | `users` defaults to `null` and is forwarded to `findByUsername`. An explicit `null` does not take that function's default, so `Object.keys(null)` throws. | Any local login: the passport local strategy calls the callback with three arguments, so `users` is omitted. | An omitted `users` means the table loaded from `config/local-users.json`. | high, not executed | LocalAuth.StrategyCallAlwaysThrows | LocalAuth.GetLocalConfiguration |
| api/src/auth/configPassport.js:19-21 | The credentials are the replacement argument of `String.prototype.replace`, so `$$`, `$&`, `` $` `` and `$'` in them are expanded. | Password `a$$b` with `bindCredentials: '{{password}}'` gives `a$b`. | The credentials are inserted verbatim, as the special-characters case of api/test/auth/configPassport.test.js expects. | high, not executed | LdapConfig.DollarPasswordIsAltered | LdapConfig.LdapConfiguration |
| api/src/handlers/queryHandler.js:16-20 | `res.status(404)` only sets the status and sends nothing. | An operators file without `implicitConversionInfo`. | `res.sendStatus(404)`, as in the other handlers of the file. | high, not executed | QueryHandler.MissingInfoLeavesRequestOpen | QueryHandler.ImplicitConversionInfo |

=== FILE: config_handler.dfy ===
/** Two configuration handlers: `getOneValueSet`, which walks the value-set tree
    along the segments of the request path, and `getConversionFunctions`, which
    lists the functions of the conversions library with display descriptions. */
module ConfigHandler {
  import opened JsRuntime
  import Seqs

  const MissingLevelMessage: string := "This level of ValueSet does not exist"

  /** Where a walk along path segments ends: at a value, at a segment naming no
      property (`undefined`), or at a property read on `null`, which throws. */
  datatype Resolution = Found(value: Value) | Missing | NullAccess

  /** The walk: empty segments are skipped, every other segment descends one
      level. Only a non-empty segment can stop it, and on a `null` tree the first
      non-empty segment throws. */
  function Resolve(tree: Value, path: seq<string>): (r: Resolution)
    ensures !r.Found? ==> exists i :: 0 <= i < |path| && path[i] != ""
    ensures tree.JNull? ==> (r == NullAccess <==> exists i :: 0 <= i < |path| && path[i] != "")
    decreases |path|
  {
    if |path| == 0 then Found(tree)
    else
      assert forall i :: 0 <= i < |path| - 1 ==> path[1..][i] == path[i + 1];
      if path[0] == "" then Resolve(tree, path[1..])
      else if tree.JNull? then NullAccess
      else match Property(tree, path[0])
           case None => Missing
           case Some(child) => Resolve(child, path[1..])
  }

  /** Walking `p + q` is walking `p`, then walking `q` from where `p` ended; a
      walk that stopped early stays stopped. */
  lemma {:induction false} ResolveConcat(tree: Value, p: seq<string>, q: seq<string>)
    ensures Resolve(tree, p + q) == match Resolve(tree, p)
                                    case Found(v) => Resolve(v, q)
                                    case other => other
    decreases |p|
  {
    if |p| == 0 {
      assert p + q == q;
    } else {
      assert (p + q)[0] == p[0];
      assert (p + q)[1..] == p[1..] + q;
      if p[0] == "" {
        ResolveConcat(tree, p[1..], q);
      } else if !tree.JNull? && Property(tree, p[0]).Some? {
        ResolveConcat(Property(tree, p[0]).value, p[1..], q);
      }
    }
  }

  /** Empty segments make no difference: the walk along the non-empty segments
      alone ends at the same place. */
  lemma {:induction false} ResolveSkipsEmptySegments(tree: Value, path: seq<string>)
    ensures Resolve(tree, path) == Resolve(tree, Seqs.Filter(path, (seg: string) => seg != ""))
    decreases |path|
  {
    if |path| > 0 {
      if path[0] == "" {
        ResolveSkipsEmptySegments(tree, path[1..]);
      } else if !tree.JNull? && Property(tree, path[0]).Some? {
        ResolveSkipsEmptySegments(Property(tree, path[0]).value, path[1..]);
      }
    }
  }

  /** A path of empty segments only selects the whole tree. */
  lemma AllEmptySegmentsSelectTree(tree: Value, path: seq<string>)
    requires forall i :: 0 <= i < |path| ==> path[i] == ""
    ensures Resolve(tree, path) == Found(tree)
  {
    ResolveSkipsEmptySegments(tree, path);
    var keep := (seg: string) => seg != "";
    Seqs.FilterEmpty(path, keep);
  }

  /** A missing key ends the walk whatever segments follow it. */
  lemma MissingKeyStopsWalk(tree: Value, key: string, rest: seq<string>)
    requires key != "" && !tree.JNull? && Property(tree, key).None?
    ensures Resolve(tree, [key] + rest) == Missing
  {
  }

  /** getOneValueSet: the calls made on the response, or a throw when a segment
      is read from `null`. After a missing level it sends the 404 and then still
      calls `json` with the undefined selection. */
  method GetOneValueSet(tree: Value, path: seq<string>) returns (r: Invocation<seq<ResCall<Option<Value>>>>)
    ensures r.Threw? <==> Resolve(tree, path).NullAccess?
    ensures Resolve(tree, path).Found? ==> r == Returned([Json(Some(Resolve(tree, path).value))])
    ensures Resolve(tree, path).Missing? ==>
              r == Returned([SetStatus(404), Send(MissingLevelMessage), Json(None)])
  {
    var calls: seq<ResCall<Option<Value>>> := [];
    var selected: Option<Value> := Some(tree);
    var i := 0;
    while i < |path|
      invariant 0 <= i <= |path|
      invariant selected.Some?
      invariant calls == []
      invariant Resolve(tree, path) == Resolve(selected.value, path[i..])
    {
      var variable := path[i];
      assert path[i..][0] == variable && path[i..][1..] == path[i + 1..];
      if variable != "" {
        if selected.value.JNull? {
          assert Resolve(tree, path) == NullAccess;
          return Threw("Cannot read properties of null");
        }
        selected := Property(selected.value, variable);
        if selected.None? {
          assert Resolve(tree, path) == Missing;
          calls := calls + [SetStatus(404), Send(MissingLevelMessage)];
          break;
        }
      }
      i := i + 1;
    }
    if selected.Some? {
      assert path[i..] == [];
      assert Resolve(tree, path) == Found(selected.value);
    } else {
      assert Resolve(tree, path) == Missing;
      assert calls == [SetStatus(404), Send(MissingLevelMessage)];
    }
    calls := calls + [Json(selected)];
    // Sequence equality is extensional: these spell out the two traces.
    assert selected.None? ==> calls == [SetStatus(404), Send(MissingLevelMessage), Json(None)];
    assert selected.Some? ==> calls == [Json(selected)];
    r := Returned(calls);
  }

  /** One definition of the conversions library; only its name is read. */
  datatype ExpressionDef = ExpressionDef(name: string, rest: Value)

  /** An entry of the conversion-function listing. */
  datatype ConversionEntry = ConversionEntry(name: string, description: string)

  const ConvertPrefix: string := "Convert."

  /** Descriptions that replace a function's name in the listing. */
  const DescriptionOverrides: map<string, string> := map["to_mg_per_dL" := "mmol/L to mg/dL for blood cholesterol"]

  function Describe(defName: string): (d: string)
    ensures defName in DescriptionOverrides ==> d == DescriptionOverrides[defName]
    ensures defName !in DescriptionOverrides ==> d == defName
  {
    if defName in DescriptionOverrides then DescriptionOverrides[defName] else defName
  }

  /** getConversionFunctions: one entry per definition, in order, named
      `Convert.<name>` and described by the override or by the name itself. */
  function ConversionFunctions(defs: seq<ExpressionDef>): (entries: seq<ConversionEntry>)
    ensures |entries| == |defs|
    ensures forall i :: 0 <= i < |defs| ==> entries[i].name == ConvertPrefix + defs[i].name
    ensures forall i :: 0 <= i < |defs| ==> entries[i].description == Describe(defs[i].name)
  {
    if |defs| == 0 then []
    else [ConversionEntry(ConvertPrefix + defs[0].name, Describe(defs[0].name))] + ConversionFunctions(defs[1..])
  }

  /** The definition name an entry name stands for: the text after `Convert.`. */
  function DefinitionName(entryName: string): Option<string> {
    if |entryName| >= |ConvertPrefix| && entryName[..|ConvertPrefix|] == ConvertPrefix
    then Some(entryName[|ConvertPrefix|..])
    else None
  }

  /** Entry names can be read back into the definition names, in order. */
  lemma ConversionNamesRoundTrip(defs: seq<ExpressionDef>)
    ensures var entries := ConversionFunctions(defs);
            forall i :: 0 <= i < |defs| ==> DefinitionName(entries[i].name) == Some(defs[i].name)
  {
    var entries := ConversionFunctions(defs);
    forall i | 0 <= i < |defs|
      ensures DefinitionName(entries[i].name) == Some(defs[i].name)
    {
      var n := entries[i].name;
      assert n == ConvertPrefix + defs[i].name;
      assert n[..|ConvertPrefix|] == ConvertPrefix;
      assert n[|ConvertPrefix|..] == defs[i].name;
    }
  }

  /** The one override in the table: the cholesterol unit conversion. */
  lemma CholesterolConversionDescribed(rest: Value)
    ensures ConversionFunctions([ExpressionDef("to_mg_per_dL", rest)])
         == [ConversionEntry("Convert.to_mg_per_dL", "mmol/L to mg/dL for blood cholesterol")]
  {
    var entries := ConversionFunctions([ExpressionDef("to_mg_per_dL", rest)]);
    assert ConvertPrefix + "to_mg_per_dL" == "Convert.to_mg_per_dL";
    assert |entries| == 1;
    assert entries[0] == ConversionEntry("Convert.to_mg_per_dL", "mmol/L to mg/dL for blood cholesterol");
  }
}

=== FILE: cql_importer.dfy ===
/** CQLImporter.import: every raw CQL text, the primary library's and each
    dependency's, is parsed on its own and kept beside its parse tree; the
    results form a library group. The ANTLR lexer and parser are abstracted
    as the function `parse` from source text to a tree of type `Tree`. */
module CqlImporter {

  /** A library's original source text. */
  datatype RawCQL = RawCQL(content: string)

  /** A parsed library together with the text it was parsed from. */
  datatype CQLLibrary<Tree> = CQLLibrary(tree: Tree, raw: RawCQL)

  /** The primary library and its dependencies, in the order they were supplied. */
  datatype CQLLibraryGroup<Tree> = CQLLibraryGroup(library: CQLLibrary<Tree>, dependencies: seq<CQLLibrary<Tree>>)

  /** `new CQLLibrary(this.parseLibrary(raw.content), raw)`. */
  function ImportOne<Tree>(raw: RawCQL, parse: string -> Tree): (lib: CQLLibrary<Tree>)
    ensures lib.raw == raw
    ensures lib.tree == parse(raw.content)
  {
    CQLLibrary(parse(raw.content), raw)
  }

  /** `dependencyRawCQLs.map(...)`: one library per text, position by position. */
  function ImportAll<Tree>(raws: seq<RawCQL>, parse: string -> Tree): (libs: seq<CQLLibrary<Tree>>)
    ensures |libs| == |raws|
    ensures forall i :: 0 <= i < |raws| ==> libs[i] == ImportOne(raws[i], parse)
  {
    if |raws| == 0 then []
    else [ImportOne(raws[0], parse)] + ImportAll(raws[1..], parse)
  }

  /** CQLImporter.import. */
  function Import<Tree>(primary: RawCQL, dependencies: seq<RawCQL>, parse: string -> Tree): (g: CQLLibraryGroup<Tree>)
    ensures g.library == CQLLibrary(parse(primary.content), primary)
    ensures |g.dependencies| == |dependencies|
    ensures forall i :: 0 <= i < |dependencies| ==>
              g.dependencies[i].raw == dependencies[i] && g.dependencies[i].tree == parse(dependencies[i].content)
  {
    CQLLibraryGroup(ImportOne(primary, parse), ImportAll(dependencies, parse))
  }

  /** The raw texts a sequence of libraries was built from. */
  function RawsOf<Tree>(libs: seq<CQLLibrary<Tree>>): (raws: seq<RawCQL>)
    ensures |raws| == |libs|
  {
    if |libs| == 0 then [] else [libs[0].raw] + RawsOf(libs[1..])
  }

  /** The group gives back exactly the dependency texts it was given, in order. */
  lemma {:induction false} ImportKeepsDependencyTexts<Tree>(primary: RawCQL, dependencies: seq<RawCQL>, parse: string -> Tree)
    ensures RawsOf(Import(primary, dependencies, parse).dependencies) == dependencies
    ensures Import(primary, dependencies, parse).library.raw == primary
  {
    ImportAllKeepsTexts(dependencies, parse);
  }

  lemma {:induction false} ImportAllKeepsTexts<Tree>(raws: seq<RawCQL>, parse: string -> Tree)
    ensures RawsOf(ImportAll(raws, parse)) == raws
  {
    if |raws| > 0 {
      ImportAllKeepsTexts(raws[1..], parse);
      var libs := ImportAll(raws, parse);
      assert libs[1..] == ImportAll(raws[1..], parse);
      assert raws == [raws[0]] + raws[1..];
    }
  }

  /** Importing two dependency lists one after the other gives the two imports
      one after the other: order is preserved. */
  lemma ImportDependenciesAppend<Tree>(primary: RawCQL, a: seq<RawCQL>, b: seq<RawCQL>, parse: string -> Tree)
    ensures Import(primary, a + b, parse).dependencies
         == Import(primary, a, parse).dependencies + Import(primary, b, parse).dependencies
  {
  }

  /** Each dependency depends only on its own text: two imports whose i-th texts
      agree have the same i-th library, whatever the other texts and the primary. */
  lemma DependencyParsedFromOwnText<Tree>(p1: RawCQL, d1: seq<RawCQL>, p2: RawCQL, d2: seq<RawCQL>, i: nat, parse: string -> Tree)
    requires i < |d1| && i < |d2| && d1[i] == d2[i]
    ensures Import(p1, d1, parse).dependencies[i] == Import(p2, d2, parse).dependencies[i]
  {
  }

  /** With no dependencies the group holds the primary library alone. */
  lemma NoDependencies<Tree>(primary: RawCQL, parse: string -> Tree)
    ensures Import(primary, [], parse) == CQLLibraryGroup(CQLLibrary(parse(primary.content), primary), [])
  {
  }
}

=== FILE: js_runtime.dfy ===
/** The small slice of JavaScript run-time behaviour the handlers depend on:
    JSON-like values (plus Node Buffers), truthiness, property access, the
    outcome of a call that may throw, and the calls a handler makes on an
    Express response object. */
module JsRuntime {

  datatype Option<+T> = None | Some(value: T)

  type Bytes = seq<bv8>

  /** A configuration or data value. Objects are maps because nothing modelled
      here depends on key order. Numbers are integers (no NaN, no fractions).
      `JBytes` is a Node Buffer, which only appears as a loaded certificate. */
  datatype Value =
    | JNull
    | JBool(b: bool)
    | JNum(n: int)
    | JStr(s: string)
    | JArr(items: seq<Value>)
    | JObj(fields: map<string, Value>)
    | JBytes(data: Bytes)

  /** JavaScript truthiness; `undefined` is `None` wherever a value may be absent. */
  predicate Truthy(v: Value) {
    match v
    case JNull => false
    case JBool(b) => b
    case JNum(n) => n != 0
    case JStr(s) => |s| > 0
    case _ => true
  }

  predicate IsDigit(c: char) {
    '0' <= c <= '9'
  }

  /** The value of a string of decimal digits. */
  function DigitsValue(s: string): nat
    requires forall i :: 0 <= i < |s| ==> IsDigit(s[i])
  {
    if |s| == 0 then 0
    else
      assert IsDigit(s[|s| - 1]);
      10 * DigitsValue(s[..|s| - 1]) + (s[|s| - 1] as int - '0' as int)
  }

  /** A canonical decimal numeral: "0", or digits without a leading zero. */
  predicate CanonicalNumeral(key: string) {
    |key| > 0 && (forall i :: 0 <= i < |key| ==> IsDigit(key[i])) && (key[0] != '0' || |key| == 1)
  }

  function DigitChar(d: nat): (c: char)
    requires d < 10
    ensures IsDigit(c) && c as int - '0' as int == d
  {
    (d + '0' as int) as char
  }

  /** `String(n)` for a non-negative integer. */
  function Numeral(n: nat): (s: string)
    ensures CanonicalNumeral(s)
    ensures DigitsValue(s) == n
    decreases n
  {
    if n < 10 then [DigitChar(n)]
    else
      var init := Numeral(n / 10);
      var s := init + [DigitChar(n % 10)];
      assert s[..|s| - 1] == init;
      assert forall i :: 0 <= i < |init| ==> s[i] == init[i];
      s
  }

  /** A numeral with a non-zero leading digit has a non-zero value. */
  lemma {:induction false} LeadingDigitPositive(s: string)
    requires forall i :: 0 <= i < |s| ==> IsDigit(s[i])
    requires |s| > 0 && s[0] != '0'
    ensures DigitsValue(s) > 0
    decreases |s|
  {
    if |s| > 1 {
      var init := s[..|s| - 1];
      assert init[0] == s[0];
      LeadingDigitPositive(init);
    }
  }

  lemma DivModTen(q: nat, d: nat)
    requires d < 10
    ensures (10 * q + d) / 10 == q && (10 * q + d) % 10 == d
  {
  }

  /** Reading a canonical numeral and rendering the value gives the numeral back. */
  lemma {:induction false} NumeralOfDigitsValue(key: string)
    requires CanonicalNumeral(key)
    ensures Numeral(DigitsValue(key)) == key
    decreases |key|
  {
    if |key| > 1 {
      var init := key[..|key| - 1];
      var last := key[|key| - 1];
      var d := last as int - '0' as int;
      assert forall i :: 0 <= i < |init| ==> init[i] == key[i];
      assert CanonicalNumeral(init);
      LeadingDigitPositive(init);
      NumeralOfDigitsValue(init);
      var q := DigitsValue(init);
      assert DigitsValue(key) == 10 * q + d;
      DivModTen(q, d);
      assert DigitChar(d) == last;
      calc {
        Numeral(DigitsValue(key));
        Numeral(q) + [DigitChar(d)];
        init + [last];
        key;
      }
    } else {
      assert key[..0] == [];
      assert DigitsValue(key) == key[0] as int - '0' as int;
      assert key == [DigitChar(DigitsValue(key))];
    }
  }

  /** An array index key: a canonical decimal numeral, read as its value. Arrays
      and strings index only by such keys, so the key is exactly the rendering
      `String(i)` of the index it stands for. */
  function ArrayIndex(key: string): (r: Option<nat>)
    ensures r.Some? <==> CanonicalNumeral(key)
    ensures r.Some? ==> Numeral(r.value) == key
  {
    if CanonicalNumeral(key) then
      NumeralOfDigitsValue(key);
      Some(DigitsValue(key))
    else None
  }

  /** Every index is addressed by its rendering and by nothing else. */
  lemma ArrayIndexOfNumeral(n: nat, key: string)
    ensures ArrayIndex(Numeral(n)) == Some(n)
    ensures ArrayIndex(key) == Some(n) <==> key == Numeral(n)
  {
  }

  /** `String(x)` for a request field that may be missing: `undefined` becomes
      the text "undefined". */
  function StringOf(p: Option<string>): (s: string)
    ensures p.Some? ==> s == p.value
    ensures p.None? ==> s == "undefined"
  {
    match p
    case Some(v) => v
    case None => "undefined"
  }

  /** `v[key]` for a value that is not null: own properties of objects, indices and
      `length` of arrays and strings; anything else reads as `undefined`. */
  function Property(v: Value, key: string): (r: Option<Value>)
    requires !v.JNull?
    ensures v.JObj? ==> (r.Some? <==> key in v.fields)
    ensures v.JObj? && key in v.fields ==> r == Some(v.fields[key])
    ensures v.JArr? && key == "length" ==> r == Some(JNum(|v.items|))
    ensures v.JArr? && ArrayIndex(key).Some? ==>
              (r.Some? <==> ArrayIndex(key).value < |v.items|)
              && (r.Some? ==> r.value == v.items[ArrayIndex(key).value])
    ensures (v.JArr? || v.JStr?) && key != "length" && ArrayIndex(key).None? ==> r.None?
    ensures v.JStr? && key == "length" ==> r == Some(JNum(|v.s|))
    ensures v.JStr? && ArrayIndex(key).Some? ==>
              (r.Some? <==> ArrayIndex(key).value < |v.s|)
              && (r.Some? ==> r.value == JStr([v.s[ArrayIndex(key).value]]))
    ensures v.JBool? || v.JNum? ==> r.None?
  {
    match v
    case JObj(fields) => if key in fields then Some(fields[key]) else None
    case JArr(items) =>
      if key == "length" then Some(JNum(|items|))
      else (match ArrayIndex(key)
            case Some(i) => if i < |items| then Some(items[i]) else None
            case None => None)
    case JStr(s) =>
      if key == "length" then Some(JNum(|s|))
      else (match ArrayIndex(key)
            case Some(i) => if i < |s| then Some(JStr([s[i]])) else None
            case None => None)
    case _ => None
  }

  /** The outcome of a JavaScript call: it returns, or it throws a `TypeError`. */
  datatype Invocation<+T> = Returned(result: T) | Threw(message: string)

  /** One call a handler makes on the Express response object. */
  datatype ResCall<+T> =
    | Json(body: T)            // res.json(body)
    | SetStatus(code: int)     // res.status(code): sets the code, sends nothing
    | SendStatus(code: int)    // res.sendStatus(code)
    | Send(text: string)       // res.send(text)

  predicate Sends<T>(c: ResCall<T>) {
    !c.SetStatus?
  }

  /** A trace of response calls ends the HTTP exchange iff at least one call sends. */
  predicate EndsResponse<T>(calls: seq<ResCall<T>>) {
    exists i :: 0 <= i < |calls| && Sends(calls[i])
  }
}

=== FILE: ldap_config.dfy ===
/** `getLdapConfiguration`: the per-request LDAP options handed to the passport
    LDAP strategy. The stored `auth.ldap` configuration is copied; every string
    field of its `server` object gets the request's username and password in
    place of the `{{username}}` and `{{password}}` placeholders; then a
    `tlsOptions.ca` list of certificate paths is replaced by the contents of the
    files that could be read. Values are immutable here, so the stored
    configuration cannot be changed by the call, which is what the deep clone
    achieves in the source. */
module LdapConfig {
  import opened JsRuntime
  import Strings

  const UsernamePlaceholder: string := "{{username}}"
  const PasswordPlaceholder: string := "{{password}}"

  /** `req.body.username` and `req.body.password` as the replacement text they
      become. */
  datatype Credentials = Credentials(username: string, password: string)

  /** The credentials read from a request body whose fields may be missing: a
      missing field is `undefined`, which `replace` turns into the text "undefined". */
  function BodyCredentials(username: Option<string>, password: Option<string>): (c: Credentials)
    ensures username.Some? ==> c.username == username.value
    ensures username.None? ==> c.username == "undefined"
    ensures password.Some? ==> c.password == password.value
    ensures password.None? ==> c.password == "undefined"
  {
    Credentials(StringOf(username), StringOf(password))
  }

  /** Placeholder substitution with the credentials inserted verbatim: every
      leftmost, non-overlapping `{{username}}` is replaced, and then every
      `{{password}}` of that result. A template without placeholders is kept. */
  function FillLiteral(s: string, c: Credentials): (r: string)
    ensures r == Strings.Join(Strings.Split(Strings.Join(Strings.Split(s, UsernamePlaceholder), c.username),
                                            PasswordPlaceholder), c.password)
    ensures !Strings.Contains(s, UsernamePlaceholder) && !Strings.Contains(s, PasswordPlaceholder) ==> r == s
  {
    assert !Strings.Contains(s, UsernamePlaceholder) && !Strings.Contains(s, PasswordPlaceholder) ==>
           Strings.ReplaceAll(Strings.ReplaceAll(s, UsernamePlaceholder, c.username), PasswordPlaceholder, c.password) == s
    by {
      if !Strings.Contains(s, UsernamePlaceholder) && !Strings.Contains(s, PasswordPlaceholder) {
        Strings.ReplaceAllWithoutOccurrence(s, UsernamePlaceholder, c.username);
        Strings.ReplaceAllWithoutOccurrence(s, PasswordPlaceholder, c.password);
      }
    }
    Strings.ReplaceAll(Strings.ReplaceAll(s, UsernamePlaceholder, c.username), PasswordPlaceholder, c.password)
  }

  /** Placeholder substitution as `String.prototype.replace` performs it, which
      expands `$` patterns found in the credentials; credentials without `$`
      are inserted verbatim. */
  function FillAsWritten(s: string, c: Credentials): (r: string)
    ensures '$' !in c.username && '$' !in c.password ==> r == FillLiteral(s, c)
  {
    Strings.JsReplaceAll(Strings.JsReplaceAll(s, UsernamePlaceholder, c.username), PasswordPlaceholder, c.password)
  }

  function FillField(v: Value, fill: string -> string): Value {
    if v.JStr? then JStr(fill(v.s)) else v
  }

  /** The loop over `Object.keys(server)`: string fields are rewritten, others kept.
      An array's string elements are rewritten the same way; a non-empty string
      `server` makes the assignment to its read-only index throw. */
  function FillServer(server: Value, fill: string -> string): (r: Invocation<Value>)
    ensures r.Threw? <==> server.JStr? && |server.s| > 0
    ensures server.JObj? ==> r.Returned? && r.result.JObj? && r.result.fields.Keys == server.fields.Keys
    ensures server.JObj? ==> forall k :: k in server.fields ==>
              (server.fields[k].JStr? ==> r.result.fields[k] == JStr(fill(server.fields[k].s)))
              && (!server.fields[k].JStr? ==> r.result.fields[k] == server.fields[k])
    ensures server.JArr? ==> r.Returned? && r.result.JArr? && |r.result.items| == |server.items|
    ensures server.JArr? ==> forall i :: 0 <= i < |server.items| ==>
              r.result.items[i] == if server.items[i].JStr? then JStr(fill(server.items[i].s)) else server.items[i]
    ensures !server.JObj? && !server.JArr? && r.Returned? ==> r.result == server
  {
    match server
    case JObj(fields) => Returned(JObj(map k | k in fields :: FillField(fields[k], fill)))
    case JArr(items) => Returned(JArr(seq(|items|, i requires 0 <= i < |items| => FillField(items[i], fill))))
    case JStr(s) => if |s| > 0 then Threw("Cannot assign to read only property '0' of string") else Returned(server)
    case _ => Returned(server)
  }

  /** `ca.map(readFileSync-or-undefined).filter(c => c != null)`: the contents of the
      files that could be read, in list order. */
  function LoadCertificates(paths: seq<Value>, read: Value -> Option<Bytes>): (r: seq<Value>)
    ensures |r| <= |paths|
    ensures forall i :: 0 <= i < |r| ==> r[i].JBytes?
  {
    if |paths| == 0 then []
    else LoadOne(paths[0], read) + LoadCertificates(paths[1..], read)
  }

  /** One `readFileSync` inside the try block: the contents, or nothing if it threw. */
  function LoadOne(path: Value, read: Value -> Option<Bytes>): (r: seq<Value>)
    ensures |r| <= 1
    ensures |r| == 1 <==> read(path).Some?
    ensures |r| == 1 ==> r[0] == JBytes(read(path).value)
  {
    match read(path)
    case Some(b) => [JBytes(b)]
    case None => []
  }

  /** A loaded certificate is in the list iff some path in the list reads to it. */
  lemma {:induction false} LoadCertificatesMembership(paths: seq<Value>, read: Value -> Option<Bytes>, b: Bytes)
    ensures JBytes(b) in LoadCertificates(paths, read) <==> exists i :: 0 <= i < |paths| && read(paths[i]) == Some(b)
  {
    if |paths| > 0 {
      LoadCertificatesMembership(paths[1..], read, b);
      assert forall i :: 0 < i < |paths| ==> paths[i] == paths[1..][i - 1];
      if exists i :: 0 <= i < |paths| && read(paths[i]) == Some(b) {
        var i :| 0 <= i < |paths| && read(paths[i]) == Some(b);
        if i > 0 {
          assert read(paths[1..][i - 1]) == Some(b);
        }
      }
    }
  }

  /** Loading distributes over concatenation of path lists: the order of the
      certificates is the order of their paths. */
  lemma {:induction false} LoadCertificatesAppend(a: seq<Value>, b: seq<Value>, read: Value -> Option<Bytes>)
    ensures LoadCertificates(a + b, read) == LoadCertificates(a, read) + LoadCertificates(b, read)
  {
    if |a| == 0 {
      assert a + b == b;
    } else {
      var x := a[1..];
      calc {
        LoadCertificates(a + b, read);
        { assert a + b == [a[0]] + (x + b);
          LoadCertificatesCons(a[0], x + b, read); }
        LoadOne(a[0], read) + LoadCertificates(x + b, read);
        { LoadCertificatesAppend(x, b, read); }
        LoadOne(a[0], read) + (LoadCertificates(x, read) + LoadCertificates(b, read));
        (LoadOne(a[0], read) + LoadCertificates(x, read)) + LoadCertificates(b, read);
        { assert a == [a[0]] + x;
          LoadCertificatesCons(a[0], x, read); }
        LoadCertificates(a, read) + LoadCertificates(b, read);
      }
    }
  }

  /** One path in front loads in front. */
  lemma LoadCertificatesCons(path: Value, rest: seq<Value>, read: Value -> Option<Bytes>)
    ensures LoadCertificates([path] + rest, read) == LoadOne(path, read) + LoadCertificates(rest, read)
  {
    assert ([path] + rest)[1..] == rest;
  }

  /** When every path can be read, the list becomes their contents, one for one. */
  lemma {:induction false} LoadCertificatesAllReadable(paths: seq<Value>, read: Value -> Option<Bytes>)
    requires forall i :: 0 <= i < |paths| ==> read(paths[i]).Some?
    ensures |LoadCertificates(paths, read)| == |paths|
    ensures forall i :: 0 <= i < |paths| ==> LoadCertificates(paths, read)[i] == JBytes(read(paths[i]).value)
  {
    if |paths| > 0 {
      assert forall i :: 0 < i < |paths| ==> paths[i] == paths[1..][i - 1];
      LoadCertificatesAllReadable(paths[1..], read);
    }
  }

  /** Unreadable paths around a readable one leave just its contents. */
  lemma UnreadablePathsSkipped(bad1: Value, good: Value, bad2: Value, b: Bytes, read: Value -> Option<Bytes>)
    requires read(bad1).None? && read(good) == Some(b) && read(bad2).None?
    ensures LoadCertificates([bad1, good, bad2], read) == [JBytes(b)]
  {
    assert [bad1, good, bad2][1..] == [good, bad2];
    assert [good, bad2][1..] == [bad2];
    assert [bad2][1..] == [];
    assert LoadCertificates([bad2], read) == [];
    assert LoadCertificates([good, bad2], read) == [JBytes(b)] + LoadCertificates([bad2], read);
    assert LoadCertificates([bad1, good, bad2], read) == [] + LoadCertificates([good, bad2], read);
  }

  /** `server.tlsOptions.ca` is an array. */
  predicate HasCaList(server: Value) {
    && server.JObj?
    && "tlsOptions" in server.fields
    && server.fields["tlsOptions"].JObj?
    && "ca" in server.fields["tlsOptions"].fields
    && server.fields["tlsOptions"].fields["ca"].JArr?
  }

  /** Replace an array `tlsOptions.ca` by the loaded certificates; nothing else changes. */
  function LoadCaFiles(server: Value, read: Value -> Option<Bytes>): (r: Value)
    ensures !HasCaList(server) ==> r == server
    ensures HasCaList(server) ==>
              var tls := server.fields["tlsOptions"].fields;
              && r.JObj? && r.fields.Keys == server.fields.Keys
              && (forall k :: k in server.fields && k != "tlsOptions" ==> r.fields[k] == server.fields[k])
              && r.fields["tlsOptions"].JObj? && r.fields["tlsOptions"].fields.Keys == tls.Keys
              && (forall k :: k in tls && k != "ca" ==> r.fields["tlsOptions"].fields[k] == tls[k])
              && r.fields["tlsOptions"].fields["ca"] == JArr(LoadCertificates(tls["ca"].items, read))
  {
    if HasCaList(server) then
      var tls := server.fields["tlsOptions"].fields;
      var ca := JArr(LoadCertificates(tls["ca"].items, read));
      JObj(server.fields["tlsOptions" := JObj(tls["ca" := ca])])
    else server
  }

  /** The configuration has a truthy `server` property. */
  predicate HasServer(cfg: Value) {
    cfg.JObj? && "server" in cfg.fields && Truthy(cfg.fields["server"])
  }

  /** getLdapConfiguration for a given substitution: either it throws, or the
      callback receives a null error and the rewritten configuration. */
  function LdapConfigurationWith(cfg: Value, fill: string -> string, read: Value -> Option<Bytes>): (r: Invocation<Value>)
    ensures !HasServer(cfg) ==> r == Returned(cfg)
    ensures r.Threw? <==> HasServer(cfg) && cfg.fields["server"].JStr?
    ensures HasServer(cfg) && r.Returned? ==>
              && r.result.JObj? && r.result.fields.Keys == cfg.fields.Keys
              && (forall k :: k in cfg.fields && k != "server" ==> r.result.fields[k] == cfg.fields[k])
              && r.result.fields["server"] == LoadCaFiles(FillServer(cfg.fields["server"], fill).result, read)
  {
    if HasServer(cfg) then
      match FillServer(cfg.fields["server"], fill)
      case Threw(m) => Threw(m)
      case Returned(server) => Returned(JObj(cfg.fields["server" := LoadCaFiles(server, read)]))
    else Returned(cfg)
  }

  /** getLdapConfiguration as written, with JavaScript's replacement patterns:
      outside `server` nothing changes, a non-empty string `server` throws,
      every string field of an object `server` goes through `replace` twice,
      other fields except `tlsOptions` are kept, and an array `tlsOptions.ca`
      becomes the loaded certificates whatever the credentials hold.
      For credentials without `$` it is the verbatim configuration. */
  function LdapConfigurationAsWritten(cfg: Value, creds: Credentials, read: Value -> Option<Bytes>): (r: Invocation<Value>)
    ensures !HasServer(cfg) ==> r == Returned(cfg)
    ensures r.Threw? <==> HasServer(cfg) && cfg.fields["server"].JStr?
    ensures HasServer(cfg) && HasCaList(cfg.fields["server"]) ==>
              var tls := cfg.fields["server"].fields["tlsOptions"].fields;
              && r.Returned? && r.result.JObj? && "server" in r.result.fields
              && HasCaList(r.result.fields["server"])
              && r.result.fields["server"].fields["tlsOptions"].fields.Keys == tls.Keys
              && r.result.fields["server"].fields["tlsOptions"].fields["ca"] == JArr(LoadCertificates(tls["ca"].items, read))
              && (forall k :: k in tls && k != "ca" ==> r.result.fields["server"].fields["tlsOptions"].fields[k] == tls[k])
    ensures HasServer(cfg) && cfg.fields["server"].JObj? ==>
              var server := cfg.fields["server"].fields;
              && r.Returned? && r.result.JObj? && r.result.fields.Keys == cfg.fields.Keys
              && (forall k :: k in cfg.fields && k != "server" ==> r.result.fields[k] == cfg.fields[k])
              && r.result.fields["server"].JObj?
              && r.result.fields["server"].fields.Keys == server.Keys
              && (forall k :: k in server && server[k].JStr? ==>
                    r.result.fields["server"].fields[k] == JStr(FillAsWritten(server[k].s, creds)))
              && (forall k :: k in server && !server[k].JStr? && k != "tlsOptions" ==>
                    r.result.fields["server"].fields[k] == server[k])
    ensures '$' !in creds.username && '$' !in creds.password ==> r == LdapConfiguration(cfg, creds, read)
  {
    var asWritten: string -> string := s => FillAsWritten(s, creds);
    assert '$' !in creds.username && '$' !in creds.password ==>
           LdapConfigurationWith(cfg, asWritten, read) == LdapConfiguration(cfg, creds, read)
    by {
      if '$' !in creds.username && '$' !in creds.password {
        var literal: string -> string := s => FillLiteral(s, creds);
        SubstitutionCongruence(cfg, asWritten, literal, read);
      }
    }
    // Filling leaves the `tlsOptions` object as it is, so the CA step still applies.
    assert HasServer(cfg) && HasCaList(cfg.fields["server"]) ==>
           HasCaList(FillServer(cfg.fields["server"], asWritten).result)
    by {
      if HasServer(cfg) && HasCaList(cfg.fields["server"]) {
        var server := FillServer(cfg.fields["server"], asWritten).result;
        assert server.fields["tlsOptions"] == cfg.fields["server"].fields["tlsOptions"];
      }
    }
    LdapConfigurationWith(cfg, asWritten, read)
  }

  /** getLdapConfiguration with credentials inserted verbatim. Outside `server`
      nothing changes; every string field of an object `server` is filled in;
      every other field is kept, except that an array `tlsOptions.ca` becomes the
      loaded certificates while the other `tlsOptions` fields are kept. */
  function LdapConfiguration(cfg: Value, creds: Credentials, read: Value -> Option<Bytes>): (r: Invocation<Value>)
    ensures !HasServer(cfg) ==> r == Returned(cfg)
    ensures HasServer(cfg) && cfg.fields["server"].JObj? ==>
              var server := cfg.fields["server"].fields;
              && r.Returned? && r.result.JObj? && r.result.fields.Keys == cfg.fields.Keys
              && (forall k :: k in cfg.fields && k != "server" ==> r.result.fields[k] == cfg.fields[k])
              && r.result.fields["server"].JObj?
              && r.result.fields["server"].fields.Keys == server.Keys
              && (forall k :: k in server && server[k].JStr? ==>
                    r.result.fields["server"].fields[k] == JStr(FillLiteral(server[k].s, creds)))
              && (forall k :: k in server && !server[k].JStr? && k != "tlsOptions" ==>
                    r.result.fields["server"].fields[k] == server[k])
  {
    LdapConfigurationWith(cfg, s => FillLiteral(s, creds), read)
  }

  /** The certificate step, read off the final configuration: an array
      `server.tlsOptions.ca` becomes the readable files' contents and the other
      `tlsOptions` fields (such as `rejectUnauthorized`) are kept. */
  lemma CaListLoaded(cfg: Value, creds: Credentials, read: Value -> Option<Bytes>)
    requires HasServer(cfg) && HasCaList(cfg.fields["server"])
    ensures var r := LdapConfiguration(cfg, creds, read);
            var tls := cfg.fields["server"].fields["tlsOptions"].fields;
            && r.Returned?
            && r.result.fields["server"].fields["tlsOptions"].fields.Keys == tls.Keys
            && r.result.fields["server"].fields["tlsOptions"].fields["ca"] == JArr(LoadCertificates(tls["ca"].items, read))
            && forall k :: k in tls && k != "ca" ==> r.result.fields["server"].fields["tlsOptions"].fields[k] == tls[k]
  {
    var fill := s => FillLiteral(s, creds);
    var server := FillServer(cfg.fields["server"], fill).result;
    assert server.fields["tlsOptions"] == cfg.fields["server"].fields["tlsOptions"];
    assert HasCaList(server);
  }

  lemma FillServerCongruence(server: Value, f: string -> string, g: string -> string)
    requires forall s :: f(s) == g(s)
    ensures FillServer(server, f) == FillServer(server, g)
  {
    match server
    case JObj(fields) =>
      var mf := map k | k in fields :: FillField(fields[k], f);
      var mg := map k | k in fields :: FillField(fields[k], g);
      assert forall k | k in fields :: mf[k] == mg[k];
      assert mf == mg;
    case JArr(items) =>
      var sf := seq(|items|, i requires 0 <= i < |items| => FillField(items[i], f));
      var sg := seq(|items|, i requires 0 <= i < |items| => FillField(items[i], g));
      assert sf == sg;
    case _ =>
  }

  /** The configuration depends on the substitution only through its results. */
  lemma SubstitutionCongruence(cfg: Value, f: string -> string, g: string -> string, read: Value -> Option<Bytes>)
    requires forall s :: f(s) == g(s)
    ensures LdapConfigurationWith(cfg, f, read) == LdapConfigurationWith(cfg, g, read)
  {
    if HasServer(cfg) {
      FillServerCongruence(cfg.fields["server"], f, g);
    }
  }

  /** A field holding just the password placeholder receives the password
      verbatim, whatever characters it contains. */
  lemma PasswordFieldIsVerbatim(creds: Credentials)
    ensures FillLiteral(PasswordPlaceholder, creds) == creds.password
  {
    PlaceholdersDiffer();
    Strings.ReplaceAllWithoutOccurrence(PasswordPlaceholder, UsernamePlaceholder, creds.username);
    assert Strings.ReplaceAll(PasswordPlaceholder, PasswordPlaceholder, creds.password)
        == creds.password + Strings.ReplaceAll("", PasswordPlaceholder, creds.password);
  }

  /** A field holding just the username placeholder receives the username
      verbatim, provided the username does not itself spell the password
      placeholder. */
  lemma UsernameFieldIsVerbatim(creds: Credentials)
    requires !Strings.Contains(creds.username, PasswordPlaceholder)
    ensures FillLiteral(UsernamePlaceholder, creds) == creds.username
  {
    assert Strings.ReplaceAll(UsernamePlaceholder, UsernamePlaceholder, creds.username)
        == creds.username + Strings.ReplaceAll("", UsernamePlaceholder, creds.username);
    assert Strings.ReplaceAll(UsernamePlaceholder, UsernamePlaceholder, creds.username) == creds.username;
    Strings.ReplaceAllWithoutOccurrence(creds.username, PasswordPlaceholder, creds.password);
  }

  /** The password substitution runs over the result of the username
      substitution: a username spelling `{{password}}` is itself replaced. */
  lemma PasswordSubstitutedAfterUsername(password: string)
    ensures FillLiteral(UsernamePlaceholder, Credentials(PasswordPlaceholder, password)) == password
  {
    var creds := Credentials(PasswordPlaceholder, password);
    assert Strings.ReplaceAll(UsernamePlaceholder, UsernamePlaceholder, PasswordPlaceholder)
        == PasswordPlaceholder + Strings.ReplaceAll("", UsernamePlaceholder, PasswordPlaceholder);
    assert Strings.ReplaceAll(PasswordPlaceholder, PasswordPlaceholder, password)
        == password + Strings.ReplaceAll("", PasswordPlaceholder, password);
  }

  /** A password containing `$$` loses a dollar sign as written: a bind password
      template `{{password}}` with password `a$$b` becomes `a$b`. */
  lemma DollarPasswordIsAltered()
    ensures FillAsWritten(PasswordPlaceholder, Credentials("bob", "a$$b")) == "a$b"
    ensures FillLiteral(PasswordPlaceholder, Credentials("bob", "a$$b")) == "a$$b"
  {
    var creds := Credentials("bob", "a$$b");
    PasswordFieldIsVerbatim(creds);
    PlaceholdersDiffer();
    Strings.ReplaceAllWithoutOccurrence(PasswordPlaceholder, UsernamePlaceholder, creds.username);
    var sub := Strings.Substitution("a$$b", PasswordPlaceholder, "", "");
    assert sub == "a" + Strings.Substitution("$$b", PasswordPlaceholder, "", "");
    assert Strings.Substitution("$$b", PasswordPlaceholder, "", "") == "$" + Strings.Substitution("b", PasswordPlaceholder, "", "");
    assert sub == "a$b";
    assert Strings.JsReplaceAll(PasswordPlaceholder, PasswordPlaceholder, "a$$b")
        == sub + Strings.JsReplaceFrom(PasswordPlaceholder, "", PasswordPlaceholder, "a$$b");
  }

  /** A request body without the password field fills `{{password}}` with the
      text "undefined"; without the username field, `{{username}}` likewise. */
  lemma MissingFieldsFillUndefined(username: Option<string>, password: Option<string>)
    ensures password.None? ==> FillLiteral(PasswordPlaceholder, BodyCredentials(username, password)) == "undefined"
    ensures username.None? ==> FillLiteral(UsernamePlaceholder, BodyCredentials(username, password)) == "undefined"
  {
    var creds := BodyCredentials(username, password);
    PasswordFieldIsVerbatim(creds);
    if username.None? {
      assert !Strings.MatchesAt("undefined", 0, PasswordPlaceholder);
      assert !Strings.Contains("undefined", PasswordPlaceholder);
      UsernameFieldIsVerbatim(creds);
    }
  }

  /** The password placeholder does not contain the username placeholder. */
  lemma PlaceholdersDiffer()
    ensures !Strings.Contains(PasswordPlaceholder, UsernamePlaceholder)
  {
    forall i | 0 <= i <= |PasswordPlaceholder|
      ensures !Strings.MatchesAt(PasswordPlaceholder, i, UsernamePlaceholder)
    {
      if i == 0 {
        assert PasswordPlaceholder[2] != UsernamePlaceholder[2];
      }
    }
  }
}

=== FILE: local_auth.dfy ===
/** Local (username/password) authentication: the users table loaded from
    `config/local-users.json`, `findByUsername`, and the verify callback
    `getLocalConfiguration` that the passport local strategy invokes. */
module LocalAuth {
  import opened JsRuntime

  /** The users object as `Object.keys` enumerates it: user name and stored password. */
  type UserTable = seq<(string, Value)>

  /** A JavaScript object never has the same key twice. */
  predicate DistinctKeys(t: UserTable) {
    forall i, j :: 0 <= i < j < |t| ==> t[i].0 != t[j].0
  }

  /** The table read as a key/value object. */
  function UsersObject(t: UserTable): (m: map<string, Value>)
    requires DistinctKeys(t)
  {
    map i | 0 <= i < |t| :: t[i].0 := t[i].1
  }

  /** The user record handed to passport; it mirrors the LDAP entry shape. */
  datatype User = User(uid: string, password: Value)

  /** The arguments `findByUsername` passes to its callback. */
  datatype LookupReply = LookupReply(err: Option<string>, user: Option<User>)

  /** What the verify callback passes to `done`: an error, `false`, or the user. */
  datatype Verdict = DoneError(err: string) | DoneFalse | DoneUser(user: User)

  /** The users known when no `users` argument is given: the parsed configuration
      file, or the empty object when it could not be loaded. */
  function LoadedUsers(file: Option<UserTable>): (t: UserTable)
    ensures file.None? ==> |t| == 0
    ensures file.Some? ==> t == file.value
  {
    match file
    case Some(table) => table
    case None => []
  }

  /** The scan over the keys: the first key equal to `name` gives the user. */
  function FirstMatch(name: string, t: UserTable): (r: Option<User>)
    ensures r.Some? <==> exists i :: 0 <= i < |t| && t[i].0 == name
    ensures r.Some? ==> r.value.uid == name
    ensures r.Some? ==> exists i :: 0 <= i < |t| && t[i] == (name, r.value.password)
                                    && forall j :: 0 <= j < i ==> t[j].0 != name
  {
    if |t| == 0 then None
    else if t[0].0 == name then Some(User(t[0].0, t[0].1))
    else
      var r := FirstMatch(name, t[1..]);
      assert forall i :: 0 < i < |t| ==> t[i] == t[1..][i - 1];
      r
  }

  /** findByUsername: the callback always receives a null error, and the user
      record iff the name is one of the keys. */
  function FindByUsername(name: string, users: UserTable): (r: LookupReply)
    ensures r.err.None?
    ensures r.user.Some? <==> exists i :: 0 <= i < |users| && users[i].0 == name
    ensures r.user.Some? ==> r.user.value.uid == name
    ensures r.user.Some? ==> exists i :: 0 <= i < |users| && users[i] == (name, r.user.value.password)
  {
    LookupReply(None, FirstMatch(name, users))
  }

  /** Read as an object, the scan finds exactly the stored entry for `name`. */
  lemma {:induction false} FindByUsernameReadsObject(name: string, users: UserTable)
    requires DistinctKeys(users)
    ensures name in UsersObject(users) ==> FindByUsername(name, users).user == Some(User(name, UsersObject(users)[name]))
    ensures name !in UsersObject(users) ==> FindByUsername(name, users).user == None
  {
    var r := FindByUsername(name, users);
    var m := UsersObject(users);
    if r.user.Some? {
      var i :| 0 <= i < |users| && users[i] == (name, r.user.value.password);
      assert users[i].0 in m;
      assert m[users[i].0] == users[i].1;
    }
  }

  /** With no users file, nobody is found. */
  lemma NoUsersFileFindsNobody(name: string)
    ensures FindByUsername(name, LoadedUsers(None)) == LookupReply(None, None)
  {
  }

  /** `if (err)`: the lookup error is truthy, i.e. present and not the empty string. */
  predicate ErrorRaised(reply: LookupReply) {
    reply.err.Some? && |reply.err.value| > 0
  }

  /** The body of the verify callback: propagate a truthy lookup error, refuse an
      unknown user or a password that is not strictly equal, else accept. */
  function CheckLocalUser(reply: LookupReply, password: string): (v: Verdict)
    ensures ErrorRaised(reply) ==> v == DoneError(reply.err.value)
    ensures !ErrorRaised(reply) ==> !v.DoneError?
    ensures !ErrorRaised(reply) && reply.user.None? ==> v == DoneFalse
    ensures !ErrorRaised(reply) ==> (v.DoneUser? <==> reply.user.Some? && reply.user.value.password == JStr(password))
    ensures v.DoneUser? ==> reply.user == Some(v.user)
  {
    if ErrorRaised(reply) then DoneError(reply.err.value)
    else
      match reply.user
      case None => DoneFalse
      case Some(u) => if u.password != JStr(password) then DoneFalse else DoneUser(u)
  }

  /** The `users` argument as a JavaScript caller supplies it. */
  datatype UsersArg = Omitted | Null | Given(table: UserTable)

  /** Calling findByUsername with a `users` argument: an omitted argument takes the
      loaded table (a default parameter); an explicit null is not replaced by the
      default, and `Object.keys(null)` throws. */
  function FindByUsernameCall(name: string, users: UsersArg, loaded: UserTable): (r: Invocation<LookupReply>)
    ensures users.Null? <==> r.Threw?
    ensures users.Omitted? ==> r == Returned(FindByUsername(name, loaded))
    ensures users.Given? ==> r == Returned(FindByUsername(name, users.table))
  {
    match users
    case Omitted => Returned(FindByUsername(name, loaded))
    case Null => Threw("Cannot convert undefined or null to object")
    case Given(t) => Returned(FindByUsername(name, t))
  }

  /** getLocalConfiguration as written: its own `users` parameter defaults to
      null, and that null is forwarded to findByUsername. */
  function GetLocalConfigurationAsWritten(username: string, password: string, users: UsersArg,
                                          loaded: UserTable): (r: Invocation<Verdict>)
    ensures r.Threw? <==> !users.Given?
    ensures users.Given? ==> r == Returned(GetLocalConfiguration(username, password, Some(users.table), loaded))
  {
    var forwarded := if users.Omitted? then Null else users;
    match FindByUsernameCall(username, forwarded, loaded)
    case Threw(m) => Threw(m)
    case Returned(reply) => Returned(CheckLocalUser(reply, password))
  }

  /** The passport local strategy calls the verify callback with three arguments,
      so as written every login attempt in the running server throws, whatever
      the configured users. */
  lemma StrategyCallAlwaysThrows(username: string, password: string, loaded: UserTable)
    ensures GetLocalConfigurationAsWritten(username, password, Omitted, loaded).Threw?
  {
  }

  /** getLocalConfiguration with the default forwarded as `undefined`, so that an
      omitted `users` argument means the loaded table. It never reports an error,
      and accepts exactly when the name is found with a strictly equal password. */
  function GetLocalConfiguration(username: string, password: string, users: Option<UserTable>,
                                 loaded: UserTable): (v: Verdict)
    ensures !v.DoneError?
    ensures v.DoneUser? ==> v.user == User(username, JStr(password))
    ensures var t := if users.Some? then users.value else loaded;
            v.DoneUser? <==> FirstMatch(username, t) == Some(User(username, JStr(password)))
  {
    var reply := match users
                 case Some(t) => FindByUsername(username, t)
                 case None => FindByUsername(username, loaded);
    CheckLocalUser(reply, password)
  }

  /** Against the users object: the user is accepted iff the name is a key whose
      stored value is the supplied password string; otherwise the answer is `false`. */
  lemma LocalLoginAgainstObject(username: string, password: string, users: UserTable)
    requires DistinctKeys(users)
    ensures var m := UsersObject(users);
            GetLocalConfiguration(username, password, Some(users), []) ==
              if username in m && m[username] == JStr(password) then DoneUser(User(username, JStr(password)))
              else DoneFalse
  {
    FindByUsernameReadsObject(username, users);
  }

  /** With no users file, every login attempt is refused. */
  lemma NoUsersFileNobodyLogsIn(username: string, password: string)
    ensures GetLocalConfiguration(username, password, None, LoadedUsers(None)) == DoneFalse
  {
  }

  /** The users of the module's tests: `bob` and `sue`. */
  function SampleUsers(): UserTable {
    [("bob", JStr("p@$$w0rd!")), ("sue", JStr("1l0v3h0r$3$!"))]
  }

  /** The documented outcomes for the sample users: found and not found, right
      password, wrong password, unknown user. */
  lemma SampleUsersOutcomes()
    ensures FindByUsername("bob", SampleUsers()) == LookupReply(None, Some(User("bob", JStr("p@$$w0rd!"))))
    ensures FindByUsername("gerald", SampleUsers()) == LookupReply(None, None)
    ensures GetLocalConfiguration("bob", "p@$$w0rd!", Some(SampleUsers()), []) == DoneUser(User("bob", JStr("p@$$w0rd!")))
    ensures GetLocalConfiguration("bob", "wrongpassword", Some(SampleUsers()), []) == DoneFalse
    ensures GetLocalConfiguration("nonexistentuser", "anypassword", Some(SampleUsers()), []) == DoneFalse
  {
  }
}

=== FILE: query_handler.dfy ===
/** The query-builder handlers: choosing a FHIR resource catalogue by version
    string, looking resources up by name, finding the operators applicable to an
    operand type, and serving the implicit-conversion table. Each handler is
    modelled by the calls it makes on the Express response. */
module QueryHandler {
  import opened JsRuntime
  import Seqs

  /** A catalogue entry; only `name` is consulted, the rest is carried along. */
  datatype Resource = Resource(name: string, rest: Value)

  datatype Catalogue = Catalogue(resources: seq<Resource>)

  datatype Operand = Operand(typeSpecifier: string, elementTypes: seq<string>)

  datatype Operator = Operator(primaryOperand: Operand, rest: Value)

  /** `operators.json`: the operator list and the implicit-conversion table. */
  datatype OperatorsFile = OperatorsFile(operators: seq<Operator>, implicitConversionInfo: Option<Value>)

  /** The data files read when the module is loaded. */
  datatype QueryResources = QueryResources(dstu2: Catalogue, stu3: Catalogue, r4: Catalogue, operators: OperatorsFile)

  datatype Release = DSTU2 | STU3 | R4

  const AnyType: string := "System.Any"

  /** A query parameter is truthy when present and non-empty. */
  predicate Present(p: Option<string>) {
    p.Some? && |p.value| > 0
  }

  /** The regular expression `4\.0\.[01x]` matches at position `i`. */
  predicate R4PatternAt(s: string, i: int) {
    0 <= i && i + 5 <= |s| && s[i..i + 4] == "4.0." && s[i + 4] in {'0', '1', 'x'}
  }

  /** The unanchored test of `4\.0\.[01x]`, scanning from position `from`. */
  function ScanR4(s: string, from: nat): bool
    decreases |s| - from
  {
    if from + 5 > |s| then false
    else R4PatternAt(s, from) || ScanR4(s, from + 1)
  }

  /** The scan finds a match iff one exists at or after the start position. */
  lemma {:induction false} ScanR4Finds(s: string, from: nat)
    ensures ScanR4(s, from) <==> exists i :: from <= i && R4PatternAt(s, i)
    decreases |s| - from
  {
    if from + 5 > |s| {
      assert forall i :: from <= i ==> !R4PatternAt(s, i);
    } else {
      ScanR4Finds(s, from + 1);
    }
  }

  /** resourceSelector: exact versions for DSTU2 and STU3, the regular expression for R4. */
  function ResourceSelector(fhirVersion: Option<string>): (r: Option<Release>)
    ensures fhirVersion == Some("1.0.2") ==> r == Some(DSTU2)
    ensures fhirVersion == Some("3.0.0") ==> r == Some(STU3)
    ensures r == Some(R4) <==> (fhirVersion != Some("1.0.2") && fhirVersion != Some("3.0.0")
                                && exists i :: R4PatternAt(StringOf(fhirVersion), i))
    ensures r == Some(DSTU2) ==> fhirVersion == Some("1.0.2")
    ensures r == Some(STU3) ==> fhirVersion == Some("3.0.0")
  {
    ScanR4Finds(StringOf(fhirVersion), 0);
    if fhirVersion == Some("1.0.2") then Some(DSTU2)
    else if fhirVersion == Some("3.0.0") then Some(STU3)
    else if ScanR4(StringOf(fhirVersion), 0) then Some(R4)
    else None
  }

  /** The R4 test is unanchored: a version merely containing `4.0.0`, `4.0.1` or
      `4.0.x` selects R4, e.g. `14.0.1-beta`. */
  lemma R4VersionsAreSubstrings(prefix: string, suffix: string, tail: char)
    requires tail in {'0', '1', 'x'}
    ensures ResourceSelector(Some(prefix + "4.0." + [tail] + suffix)) == Some(R4)
  {
    var v := prefix + "4.0." + [tail] + suffix;
    assert v[|prefix|..|prefix| + 4] == "4.0.";
    assert v[|prefix|] == '4';
    assert v != "1.0.2" && v != "3.0.0" by {
      assert forall j :: 0 <= j < 5 ==> "1.0.2"[j] != '4' && "3.0.0"[j] != '4';
    }
    assert v[|prefix| + 4] == tail;
    assert R4PatternAt(v, |prefix|);
  }

  /** The missing parameter is read as the text `undefined`, which selects nothing. */
  lemma MissingVersionSelectsNothing()
    ensures ResourceSelector(None) == None
  {
  }

  function CatalogueOf(res: QueryResources, release: Release): Catalogue {
    match release
    case DSTU2 => res.dstu2
    case STU3 => res.stu3
    case R4 => res.r4
  }

  /** resourceQuery: 400 unless the resource name is given and the version is
      known; otherwise the resources of that name in catalogue order, or 404. */
  function ResourceQuery(resourceName: Option<string>, fhirVersion: Option<string>, res: QueryResources)
    : (calls: seq<ResCall<seq<Resource>>>)
    ensures |calls| == 1 && Sends(calls[0])
    ensures calls == [SendStatus(400)] <==> !Present(resourceName) || ResourceSelector(fhirVersion).None?
    ensures calls[0].Json? ==>
              var catalogue := CatalogueOf(res, ResourceSelector(fhirVersion).value).resources;
              && |calls[0].body| > 0
              && calls[0].body == ResourcesNamed(catalogue, resourceName.value)
              && (forall r :: r in calls[0].body <==> r in catalogue && r.name == resourceName.value)
    ensures Present(resourceName) && ResourceSelector(fhirVersion).Some? ==>
              var found := ResourcesNamed(CatalogueOf(res, ResourceSelector(fhirVersion).value).resources, resourceName.value);
              |found| > 0 ==> calls == [Json(found)]
    ensures calls == [SendStatus(404)] <==>
              Present(resourceName) && ResourceSelector(fhirVersion).Some?
              && forall r :: r in CatalogueOf(res, ResourceSelector(fhirVersion).value).resources ==> r.name != resourceName.value
  {
    match ResourceSelector(fhirVersion)
    case Some(release) =>
      if Present(resourceName) then
        var found := ResourcesNamed(CatalogueOf(res, release).resources, resourceName.value);
        if |found| > 0 then [Json(found)] else [SendStatus(404)]
      else [SendStatus(400)]
    case None => [SendStatus(400)]
  }

  /** The filter of resourceQuery, with its meaning. */
  function ResourcesNamed(catalogue: seq<Resource>, name: string): (found: seq<Resource>)
    ensures forall r :: r in found <==> r in catalogue && r.name == name
    ensures |found| == 0 <==> forall r :: r in catalogue ==> r.name != name
    ensures |found| <= |catalogue|
  {
    var keep := (r: Resource) => r.name == name;
    forall r ensures r in Seqs.Filter(catalogue, keep) <==> r in catalogue && keep(r) {
      Seqs.FilterMembership(catalogue, keep, r);
    }
    Seqs.FilterEmpty(catalogue, keep);
    Seqs.Filter(catalogue, keep)
  }

  /** The matching resources keep their catalogue order. */
  lemma ResourcesNamedKeepOrder(a: seq<Resource>, b: seq<Resource>, name: string)
    ensures ResourcesNamed(a + b, name) == ResourcesNamed(a, name) + ResourcesNamed(b, name)
  {
    Seqs.FilterAppend(a, b, (r: Resource) => r.name == name);
  }

  /** The operator applies: same primary operand type, and an element type that is
      the requested one or the `System.Any` wildcard. */
  predicate Accepts(op: Operator, typeSpecifier: string, elementType: string) {
    && op.primaryOperand.typeSpecifier == typeSpecifier
    && (elementType in op.primaryOperand.elementTypes || AnyType in op.primaryOperand.elementTypes)
  }

  /** An operator over `System.Any` elements applies to every element type. */
  lemma AnyIsWildcard(op: Operator, elementType: string)
    requires AnyType in op.primaryOperand.elementTypes
    ensures Accepts(op, op.primaryOperand.typeSpecifier, elementType)
  {
  }

  /** operatorQuery: 400 unless both parameters are given; otherwise the accepted
      operators in file order, or 404 when there are none. */
  function OperatorQuery(typeSpecifier: Option<string>, elementType: Option<string>, ops: OperatorsFile)
    : (calls: seq<ResCall<seq<Operator>>>)
    ensures |calls| == 1 && Sends(calls[0])
    ensures calls == [SendStatus(400)] <==> !(Present(typeSpecifier) && Present(elementType))
    ensures calls[0].Json? ==>
              && |calls[0].body| > 0
              && calls[0].body == AcceptedOperators(ops.operators, typeSpecifier.value, elementType.value)
              && (forall op :: op in calls[0].body <==>
                    op in ops.operators && Accepts(op, typeSpecifier.value, elementType.value))
    ensures Present(typeSpecifier) && Present(elementType) ==>
              var found := AcceptedOperators(ops.operators, typeSpecifier.value, elementType.value);
              |found| > 0 ==> calls == [Json(found)]
    ensures calls == [SendStatus(404)] <==>
              Present(typeSpecifier) && Present(elementType)
              && forall op :: op in ops.operators ==> !Accepts(op, typeSpecifier.value, elementType.value)
  {
    if Present(typeSpecifier) && Present(elementType) then
      var found := AcceptedOperators(ops.operators, typeSpecifier.value, elementType.value);
      if |found| > 0 then [Json(found)] else [SendStatus(404)]
    else [SendStatus(400)]
  }

  /** The filter of operatorQuery, with its meaning. */
  function AcceptedOperators(ops: seq<Operator>, typeSpecifier: string, elementType: string): (found: seq<Operator>)
    ensures forall op :: op in found <==> op in ops && Accepts(op, typeSpecifier, elementType)
    ensures |found| == 0 <==> forall op :: op in ops ==> !Accepts(op, typeSpecifier, elementType)
    ensures |found| <= |ops|
  {
    var keep := (op: Operator) => Accepts(op, typeSpecifier, elementType);
    forall op ensures op in Seqs.Filter(ops, keep) <==> op in ops && keep(op) {
      Seqs.FilterMembership(ops, keep, op);
    }
    Seqs.FilterEmpty(ops, keep);
    Seqs.Filter(ops, keep)
  }

  /** The accepted operators keep their relative order: filtering two halves of
      the operator list and concatenating gives the filter of the whole list. */
  lemma AcceptedOperatorsKeepOrder(a: seq<Operator>, b: seq<Operator>, typeSpecifier: string, elementType: string)
    ensures AcceptedOperators(a + b, typeSpecifier, elementType)
         == AcceptedOperators(a, typeSpecifier, elementType) + AcceptedOperators(b, typeSpecifier, elementType)
  {
    Seqs.FilterAppend(a, b, (op: Operator) => Accepts(op, typeSpecifier, elementType));
  }

  /** implicitConversionInfo as written: a missing table only sets the status code,
      so no response is ever sent. */
  function ImplicitConversionInfoAsWritten(ops: OperatorsFile): (calls: seq<ResCall<Value>>)
    ensures |calls| == 1
    ensures calls[0].Json? <==> ops.implicitConversionInfo.Some? && Truthy(ops.implicitConversionInfo.value)
    ensures calls[0].Json? ==> calls[0].body == ops.implicitConversionInfo.value
    ensures !calls[0].Json? ==> calls == [SetStatus(404)]
  {
    match ops.implicitConversionInfo
    case Some(info) => if Truthy(info) then [Json(info)] else [SetStatus(404)]
    case None => [SetStatus(404)]
  }

  /** Without the table the as-written handler leaves the request unanswered. */
  lemma MissingInfoLeavesRequestOpen(ops: OperatorsFile)
    requires ops.implicitConversionInfo.None?
    ensures !EndsResponse(ImplicitConversionInfoAsWritten(ops))
  {
  }

  /** implicitConversionInfo sending the 404 it evidently means: every request
      is answered, with the table when there is one. */
  function ImplicitConversionInfo(ops: OperatorsFile): (calls: seq<ResCall<Value>>)
    ensures EndsResponse(calls)
    ensures |calls| == 1
    ensures calls[0].Json? <==> ops.implicitConversionInfo.Some? && Truthy(ops.implicitConversionInfo.value)
    ensures calls[0].Json? ==> calls[0].body == ops.implicitConversionInfo.value
    ensures !calls[0].Json? ==> calls == [SendStatus(404)]
  {
    var r := match ops.implicitConversionInfo
             case Some(info) => if Truthy(info) then [Json(info)] else [SendStatus(404)]
             case None => [SendStatus(404)];
    assert Sends(r[0]);
    r
  }
}

=== FILE: seqs.dfy ===
/** `Array.prototype.filter` on sequences, with the laws that pin it down:
    it keeps exactly the elements satisfying the predicate and keeps them in
    their original order. */
module Seqs {

  function Filter<T>(xs: seq<T>, keep: T -> bool): (r: seq<T>)
    ensures |r| <= |xs|
    ensures forall i :: 0 <= i < |r| ==> keep(r[i])
  {
    if |xs| == 0 then []
    else if keep(xs[0]) then [xs[0]] + Filter(xs[1..], keep)
    else Filter(xs[1..], keep)
  }

  /** An element survives the filter iff it was there and satisfies the predicate. */
  lemma {:induction false} FilterMembership<T>(xs: seq<T>, keep: T -> bool, x: T)
    ensures x in Filter(xs, keep) <==> x in xs && keep(x)
  {
    if |xs| > 0 {
      FilterMembership(xs[1..], keep, x);
      assert xs == [xs[0]] + xs[1..];
    }
  }

  /** Filtering distributes over concatenation, so relative order is kept. */
  lemma {:induction false} FilterAppend<T>(a: seq<T>, b: seq<T>, keep: T -> bool)
    ensures Filter(a + b, keep) == Filter(a, keep) + Filter(b, keep)
  {
    if |a| == 0 {
      assert a + b == b;
    } else {
      var x := a[1..];
      var head := if keep(a[0]) then [a[0]] else [];
      calc {
        Filter(a + b, keep);
        { assert (a + b)[0] == a[0];
          assert (a + b)[1..] == x + b; }
        head + Filter(x + b, keep);
        { FilterAppend(x, b, keep); }
        head + (Filter(x, keep) + Filter(b, keep));
        (head + Filter(x, keep)) + Filter(b, keep);
        Filter(a, keep) + Filter(b, keep);
      }
    }
  }

  /** The filter is empty iff no element satisfies the predicate. */
  lemma FilterEmpty<T>(xs: seq<T>, keep: T -> bool)
    ensures |Filter(xs, keep)| == 0 <==> forall i :: 0 <= i < |xs| ==> !keep(xs[i])
  {
    if |Filter(xs, keep)| == 0 {
      forall i | 0 <= i < |xs|
        ensures !keep(xs[i])
      {
        FilterMembership(xs, keep, xs[i]);
      }
    } else {
      var x := Filter(xs, keep)[0];
      FilterMembership(xs, keep, x);
    }
  }
}

=== FILE: strings.dfy ===
/** Global replacement of a literal pattern in a string, as done by
    `String.prototype.replace` with a `/.../g` regular expression that matches
    one fixed text. `ReplaceAll` inserts the replacement verbatim; `JsReplaceAll`
    also expands the `$` patterns JavaScript interprets in a replacement string.
    `Split` and `Join` give an independent account of which occurrences are
    replaced: the leftmost ones, without overlap. */
module Strings {

  predicate MatchesAt(s: string, i: nat, pat: string) {
    i + |pat| <= |s| && s[i..i + |pat|] == pat
  }

  predicate Contains(s: string, pat: string) {
    exists i | 0 <= i <= |s| :: MatchesAt(s, i, pat)
  }

  /** Replace every leftmost, non-overlapping occurrence of `pat` by `rep`: the
      result is the split of `s` at `pat`, joined with `rep`. */
  function ReplaceAll(s: string, pat: string, rep: string): (r: string)
    requires |pat| > 0
    ensures r == Join(Split(s, pat), rep)
    decreases |s|
  {
    if |s| < |pat| then s
    else if s[..|pat|] == pat then
      var rest := Split(s[|pat|..], pat);
      assert ([""] + rest)[1..] == rest;
      rep + ReplaceAll(s[|pat|..], pat, rep)
    else
      JoinExtendHead([s[0]], Split(s[1..], pat), rep);
      [s[0]] + ReplaceAll(s[1..], pat, rep)
  }

  /** The pieces of `s` between the leftmost non-overlapping occurrences of `pat`. */
  function Split(s: string, pat: string): (pieces: seq<string>)
    requires |pat| > 0
    ensures |pieces| > 0
    decreases |s|
  {
    if |s| < |pat| then [s]
    else if s[..|pat|] == pat then [""] + Split(s[|pat|..], pat)
    else
      var rest := Split(s[1..], pat);
      [[s[0]] + rest[0]] + rest[1..]
  }

  /** The pieces glued back together with `sep` between neighbours. */
  function Join(pieces: seq<string>, sep: string): string
    requires |pieces| > 0
  {
    if |pieces| == 1 then pieces[0]
    else pieces[0] + sep + Join(pieces[1..], sep)
  }

  /** Prepending text to the first piece prepends it to the joined string. */
  lemma JoinExtendHead(x: string, pieces: seq<string>, sep: string)
    requires |pieces| > 0
    ensures Join([x + pieces[0]] + pieces[1..], sep) == x + Join(pieces, sep)
  {
    var extended := [x + pieces[0]] + pieces[1..];
    if |pieces| > 1 {
      assert extended[1..] == pieces[1..];
    }
  }

  /** Splitting at `pat` and joining with `pat` gives back the original string. */
  lemma {:induction false} SplitJoin(s: string, pat: string)
    requires |pat| > 0
    ensures Join(Split(s, pat), pat) == s
    decreases |s|
  {
    if |s| < |pat| {
    } else if s[..|pat|] == pat {
      SplitJoinAtMatch(s, pat);
    } else {
      SplitJoin(s[1..], pat);
      JoinExtendHead([s[0]], Split(s[1..], pat), pat);
      assert s == [s[0]] + s[1..];
    }
  }

  lemma {:induction false} SplitJoinAtMatch(s: string, pat: string)
    requires |pat| > 0 && |s| >= |pat| && s[..|pat|] == pat
    ensures Join(Split(s, pat), pat) == s
    decreases |s|, 0
  {
    SplitJoin(s[|pat|..], pat);
    var rest := Split(s[|pat|..], pat);
    assert Split(s, pat) == [""] + rest;
    assert ([""] + rest)[1..] == rest;
    assert s == pat + s[|pat|..];
  }

  /** The first piece is a prefix of the string it was split from. */
  lemma {:induction false} SplitHeadIsPrefix(s: string, pat: string)
    requires |pat| > 0
    ensures |Split(s, pat)[0]| <= |s| && Split(s, pat)[0] == s[..|Split(s, pat)[0]|]
    decreases |s|
  {
    if |s| < |pat| {
    } else if s[..|pat|] == pat {
      assert Split(s, pat)[0] == [];
    } else {
      SplitHeadIsPrefix(s[1..], pat);
      var rest := Split(s[1..], pat);
      var head := [s[0]] + rest[0];
      assert Split(s, pat)[0] == head;
      assert s[1..][..|rest[0]|] == rest[0];
      assert s[..|head|] == [s[0]] + s[1..][..|rest[0]|];
    }
  }

  /** No piece contains the pattern: every occurrence was cut out, and
      since scanning is leftmost no occurrence straddles a cut from the left. */
  lemma {:induction false} SplitPiecesAreFree(s: string, pat: string)
    requires |pat| > 0
    ensures forall k :: 0 <= k < |Split(s, pat)| ==> !Contains(Split(s, pat)[k], pat)
    decreases |s|
  {
    var pieces := Split(s, pat);
    if |s| < |pat| {
      assert pieces == [s];
      forall i: nat
        ensures !MatchesAt(s, i, pat)
      {
      }
    } else if s[..|pat|] == pat {
      SplitPiecesAreFree(s[|pat|..], pat);
      var rest := Split(s[|pat|..], pat);
      assert pieces == [""] + rest;
      forall k | 0 <= k < |pieces|
        ensures !Contains(pieces[k], pat)
      {
        if k == 0 {
          forall i: nat
            ensures !MatchesAt(pieces[0], i, pat)
          {
          }
        } else {
          assert pieces[k] == rest[k - 1];
        }
      }
    } else {
      SplitPiecesAreFree(s[1..], pat);
      SplitHeadIsPrefix(s[1..], pat);
      var rest := Split(s[1..], pat);
      var head := [s[0]] + rest[0];
      assert pieces == [head] + rest[1..];
      assert head == s[..|head|] by {
        assert s == [s[0]] + s[1..];
      }
      forall k | 0 <= k < |pieces|
        ensures !Contains(pieces[k], pat)
      {
        if k == 0 {
          forall i: nat
            ensures !MatchesAt(head, i, pat)
          {
            if i > 0 && i + |pat| <= |head| {
              assert head[i..i + |pat|] == rest[0][i - 1..i - 1 + |pat|];
              assert !MatchesAt(rest[0], i - 1, pat);
            }
          }
        } else {
          assert pieces[k] == rest[k];
        }
      }
    }
  }

  /** A string with no occurrence of the pattern is left as it is. */
  lemma {:induction false} ReplaceAllWithoutOccurrence(s: string, pat: string, rep: string)
    requires |pat| > 0
    requires !Contains(s, pat)
    ensures ReplaceAll(s, pat, rep) == s
    decreases |s|
  {
    if |s| < |pat| {
    } else {
      assert !MatchesAt(s, 0, pat);
      forall i: nat
        ensures !MatchesAt(s[1..], i, pat)
      {
        if MatchesAt(s[1..], i, pat) {
          assert s[1..][i..i + |pat|] == s[i + 1..i + 1 + |pat|];
          assert MatchesAt(s, i + 1, pat);
        }
      }
      ReplaceAllWithoutOccurrence(s[1..], pat, rep);
      assert s == [s[0]] + s[1..];
    }
  }

  /** Replacing the pattern by itself changes nothing. */
  lemma ReplaceAllBySelf(s: string, pat: string)
    requires |pat| > 0
    ensures ReplaceAll(s, pat, pat) == s
  {
    SplitJoin(s, pat);
  }

  /** The text a JavaScript replacement string stands for at one match
      (ECMAScript GetSubstitution, for a pattern without capture groups):
      `$$` is a dollar sign, `$&` the matched text, `` $` `` the text before the
      match, `$'` the text after it; every other `$` is literal. */
  function Substitution(rep: string, matched: string, before: string, after: string): (r: string)
    ensures '$' !in rep ==> r == rep
    decreases |rep|
  {
    if |rep| == 0 then ""
    else if rep[0] == '$' && |rep| >= 2 then
      if rep[1] == '$' then "$" + Substitution(rep[2..], matched, before, after)
      else if rep[1] == '&' then matched + Substitution(rep[2..], matched, before, after)
      else if rep[1] == '`' then before + Substitution(rep[2..], matched, before, after)
      else if rep[1] == '\'' then after + Substitution(rep[2..], matched, before, after)
      else "$" + Substitution(rep[1..], matched, before, after)
    else
      assert forall j :: 0 <= j < |rep[1..]| ==> rep[1..][j] == rep[j + 1];
      [rep[0]] + Substitution(rep[1..], matched, before, after)
  }

  /** `s.replace(/pat/g, rep)` where `pat` matches one fixed text: `scanned` is the
      part of the original string already passed, `s` the part still to scan. */
  function JsReplaceFrom(scanned: string, s: string, pat: string, rep: string): string
    requires |pat| > 0
    decreases |s|
  {
    if |s| < |pat| then s
    else if s[..|pat|] == pat then
      Substitution(rep, pat, scanned, s[|pat|..]) + JsReplaceFrom(scanned + pat, s[|pat|..], pat, rep)
    else [s[0]] + JsReplaceFrom(scanned + [s[0]], s[1..], pat, rep)
  }

  /** `s.replace(/pat/g, rep)`; without `$` in `rep` it is literal replacement. */
  function JsReplaceAll(s: string, pat: string, rep: string): (r: string)
    requires |pat| > 0
    ensures '$' !in rep ==> r == ReplaceAll(s, pat, rep)
  {
    assert '$' !in rep ==> JsReplaceFrom("", s, pat, rep) == ReplaceAll(s, pat, rep) by {
      if '$' !in rep {
        JsReplaceFromIsLiteral("", s, pat, rep);
      }
    }
    JsReplaceFrom("", s, pat, rep)
  }

  /** Without `$` in the replacement, JavaScript's replace is literal replacement. */
  lemma {:induction false} JsReplaceFromIsLiteral(scanned: string, s: string, pat: string, rep: string)
    requires |pat| > 0
    requires '$' !in rep
    ensures JsReplaceFrom(scanned, s, pat, rep) == ReplaceAll(s, pat, rep)
    decreases |s|
  {
    if |s| < |pat| {
    } else if s[..|pat|] == pat {
      JsReplaceFromIsLiteral(scanned + pat, s[|pat|..], pat, rep);
    } else {
      JsReplaceFromIsLiteral(scanned + [s[0]], s[1..], pat, rep);
    }
  }
}
